=== FILE: README.md ===
# ModernSonicController, modelled in Dafny

This is a model of the third-person locomotion controller of a Sonic-style Unity game. It covers:

- the controller's per-frame state machine: the boost gauge, the speed tiers, the jump, the homing attack, the stomp, the slide, the quick-step and the 2.5D x-lock;
- the waypoint follower behind rail grinding and scripted auto-move;
- the entry points other objects call: `StartRail`, `StartAutoMove`, `TakeDamage`, `AddRings` and the trigger-tag dispatch.

The model is purely functional. `Controller.State` holds every private field of the controller that the logic reads, with `real` standing for `float`. `Controller.Tick(config, state, input, oracles)` is one frame. The engine's answers are parameters of the tick:

- the frame time;
- `CharacterController.isGrounded`;
- the angles from the facing to each homing candidate, in query order;
- whether the character ended the frame within 0.5 of its waypoint;
- the x coordinate after `CharacterController.Move`.

The player's stick is reduced to `hasIntent`, which stands for the input direction having a magnitude above 0.1.

Modules:

- `Settings`: the inspector fields and their declared defaults, plus the private gauge constants and the literals.
- `Boost`: the gauge.
- `Speed`: Unity's `Mathf.MoveTowards` and the tier choice.
- `Homing`: `FindHomingTarget`.
- `PathFollow`: `HandleRail` and `HandleAutoMove`, which are the same algorithm and are modelled as one.
- `QuickStep`: the `PerformQuickStep` coroutine, as explicit in-flight records.
- `Controller`: the state, `Update`, `Tick` and the events.
- `ControllerFacts`: one-frame properties.
- `Runs`: properties over sequences of frames.

Points where the model follows the code rather than the game's intended design:

- **Update's braces.** The braces of `Update` at SCR/ModernSonicController.cs:91-104 do not balance. The model takes their evident intent: a rail frame returns after `HandleRail`, otherwise an auto-move frame returns after `HandleAutoMove`, otherwise free locomotion runs.
- **Control is never restored.** `canControl` is cleared on every rail and auto-move frame and nothing sets it again. From then on the input direction is zero (`Runs.ControlLostForever`).
- **Timers are not floored.** The quick-step and homing timers count down every free frame with no lower bound. The homing guard reads last frame's value, because the decrement comes after the move.
- **homingUsed is cleared by a grounded jump,** not by landing.
- **An empty path freezes the character.** A rail or auto-move started on an empty path leaves its flag set, and once no quick-step is in flight every later frame does nothing except hold control off. A quick-step launched before the ride keeps being resumed, and sets the cooldown when it finishes.
- **Auto-move also shows the ball.**
- **Boosting on an empty gauge still boosts.** Holding boost on an empty gauge takes the regeneration branch, so the gauge is positive again when the tier is chosen, and the boosted tier is picked.
- **Slide and stomp can both be on.** Landing a stomp with the action button starts a slide and keeps the stomp flag.
- **Quick-steps can overlap.** A second quick-step can start while one is in flight, because the gate does not look at the coroutine.
- **A ring can be counted twice.** A ring collider tagged "Ring" is counted by the ring's own `AddRings` call and again by the controller's trigger.

The `Tick` of the model is `Update` followed by one resumption of every quick-step coroutine that was in flight before it. This is the order in which Unity resumes `yield return null` coroutines. A step started in this `Update` has already run its first loop segment inside `StartCoroutine`.

## Model

| member | source | states |
|---|---|---|
| Settings.DefaultIsSane | SCR/ModernSonicController.cs:14-17 | The declared speed tiers and accelerations are non-negative, the only tuning assumption the speed proofs make. |
| Boost.Regulate | SCR/ModernSonicController.cs:122-131 | The gauge drains by 30·dt, floored at 0, exactly when boost is held and fuel remains; otherwise it regenerates by 10·dt, capped at 100. It stays in [0, 100] when it starts there, and moves by at most one tick's rate, giving the exact value when not clamped. |
| Boost.Refill | SCR/ModernSonicController.cs:383-385 | Rings add two units each, capped at the top only: the result never exceeds 100, never falls for a non-negative amount, is unchanged for zero, and is e + 2·amount unless the cap was hit. |
| Speed.MoveTowards | SCR/ModernSonicController.cs:135 | The speed lands on the target when within the step, otherwise moves by exactly the step, never overshooting in either direction. |
| Speed.TierStep | SCR/ModernSonicController.cs:133-135 | One speed update moves by at most accel·dt. It rises past both the old speed and runSpeedMax only when boost is held, the post-drain gauge is positive and there is intent. |
| Speed.DecayReachesZero | SCR/ModernSonicController.cs:135 | Repeated steps toward 0 never go below 0 or above the start, and reach exactly 0 once n·step covers the start. |
| Homing.ScanSound | SCR/ModernSonicController.cs:268-280 | The foreach loop's result is none only when every angle is at least 60, and otherwise it is the best candidate. |
| Homing.BestIsUnique | SCR/ModernSonicController.cs:274-277 | At most one candidate is strictly below all earlier angles and no larger than all later ones. |
| Homing.FindTarget | SCR/ModernSonicController.cs:265-281 | The result is none exactly when every angle is ≥ 60. A candidate is returned exactly when it is below 60, strictly smaller than every earlier angle and no larger than any later one, so the first of equal minima wins. |
| PathFollow.Follow | SCR/ModernSonicController.cs:289-323 | An empty path is a no-op. A move goes toward the current waypoint exactly when the index is in range and its entry holds a Transform; otherwise the call throws and nothing changes. The index advances only when within reach, and reaching the end clears the flag and resets the index to 0. The index stays valid, the path is kept, and the follower is never switched on. |
| PathFollow.Start | SCR/ModernSonicController.cs:325-339 | A start takes the path, sets the index to 0 and switches the follower on, in a valid state. |
| PathFollow.WalkCompletes | SCR/ModernSonicController.cs:296-304 | Over any sequence of frames a follower on a non-empty path with no null entry stays on at start index + waypoints reached, until it reaches the last waypoint. Then it is off with index 0, and never before. |
| PathFollow.NullWaypointStalls | SCR/ModernSonicController.cs:292-293 | A null entry at the current index stops the follower for good: whatever the proximity answers, the walk never moves it. |
| QuickStep.LaunchLands | SCR/ModernSonicController.cs:389-405 | A step launched with frames of length dt > 0 (its first segment already run inside StartCoroutine) runs at most 0.1/dt more segments, and the resumption after them finishes it with nothing left pending. |
| QuickStep.Resume | SCR/ModernSonicController.cs:397-404 | The number of steps that finish is exactly the number whose elapsed time has reached 0.1 s, and the rest stay pending. None finishes exactly when all were still below 0.1 s, and then all advance by dt in order. Every pending step ran a segment that began below 0.1 s. |
| QuickStep.ResumeKeeps | SCR/ModernSonicController.cs:397-402 | Both directions of membership: every step still below 0.1 s is pending with dt more elapsed, and every pending step is such a step. |
| QuickStep.StepFinishes | SCR/ModernSonicController.cs:391-402 | A step is resumed only while its elapsed time is below 0.1 s, so with frames of length dt it runs for at most (0.1 − elapsed)/dt + 1 frames. |
| QuickStep.StepLands | SCR/ModernSonicController.cs:397-404 | A step alone in flight stays pending for exactly its Lifetime resumptions, and the next one finishes it: nothing pending, one step finished. |
| Controller.Initial | SCR/ModernSonicController.cs:56-87 | The initial state is valid, controllable, shows the character model and has no quick-step in flight. |
| Controller.QuickStepLaunch | SCR/ModernSonicController.cs:182-192 | At most one quick-step starts per frame. |
| Controller.QuickStepsAfter | SCR/ModernSonicController.cs:181-192 | A free frame keeps every in-flight step and appends at most one. |
| Controller.FreeUpdate | SCR/ModernSonicController.cs:106-221 | Free locomotion never touches the followers or canControl, keeps the steps in flight and starts at most one. |
| Controller.Update | SCR/ModernSonicController.cs:89-104 | A frame on a path takes control away and leaves the quick-steps alone. A frame with control had it before. |
| Controller.Tick | SCR/ModernSonicController.cs:89-104 | Control is lost for good after a ride frame or once gone: a frame ends controllable only if it was free and controllable. A frame is Update, with only the quick-step list and cooldown then changed by the coroutines. |
| Controller.StartRail | SCR/ModernSonicController.cs:325-331 | The rail follower is on at index 0 with the given points and the ball is shown. Nothing else changes. |
| Controller.StartAutoMove | SCR/ModernSonicController.cs:333-339 | The auto-move follower is on at index 0 with the given path and the ball is shown. Nothing else changes. |
| Controller.TakeDamage | SCR/ModernSonicController.cs:341-353 | With rings, rings and gauge both drop to 0 and "rings lost" is reported. Without rings, defeat is reported and nothing changes. |
| Controller.AddRings | SCR/ModernSonicController.cs:381-387 | The ring count grows by the amount. The gauge never exceeds 100 and does not fall for a non-negative amount. Nothing else changes. |
| Controller.OnTriggerEnter | SCR/ModernSonicController.cs:355-380 | "Ring" counts one ring without gauge. To2D and To3D set or clear the lock. The start tags run the matching Start only when the collider has a RailPath. Nothing else changes, and any other tag changes nothing. |
| ControllerFacts.TickKeepsValid | SCR/ModernSonicController.cs:122-131 | Every frame keeps the gauge in [0, 100] and both follower indices valid. |
| ControllerFacts.TickKeepsSpeedInRange | SCR/ModernSonicController.cs:133-135 | Under non-negative tuning every frame keeps the run speed between 0 and the faster tier: MoveTowards never overshoots a target of 0, runSpeedMax or boostSpeed, and rides leave the speed alone. |
| ControllerFacts.InitialSpeedInRange | SCR/ModernSonicController.cs:56 | The controller starts at speed 0, inside the range. |
| ControllerFacts.StartsKeepValid | SCR/ModernSonicController.cs:325-339 | Both starts keep the invariant. |
| ControllerFacts.PickupsKeepValid | SCR/ModernSonicController.cs:341-387 | Damage, trigger entries and non-negative ring pickups keep the invariant. |
| ControllerFacts.SpeedTierNeedsFuel | SCR/ModernSonicController.cs:122-135 | In a free frame the speed changes by at most accel·dt. It rises past runSpeedMax only with boost held, fuel left after the drain, and intent. |
| ControllerFacts.NoIntentSlowsDown | SCR/ModernSonicController.cs:110-137 | Without intent the speed falls by exactly the budget, or to exactly 0 when within it, never below 0. There is no drift and no stick-directed move. |
| ControllerFacts.EmptyGaugeBoostTier | SCR/ModernSonicController.cs:122-135 | On every free frame with dt > 0 where boost is held on an empty gauge, the gauge regenerates first, so it is above zero when the tier is chosen and the target speed is boostSpeed. |
| ControllerFacts.EmptyGaugeStillBoosts | SCR/ModernSonicController.cs:122-135 | Holding boost on an empty gauge regenerates it first and still lifts the speed past runSpeedMax. |
| ControllerFacts.GroundedTick | SCR/ModernSonicController.cs:139-153 | On the ground the vertical velocity is −1, or jumpPower on a jump. A grounded jump alone clears homingUsed. An action starts a slide already decremented once, showing the ball exactly while it runs. |
| ControllerFacts.HomingLaunch | SCR/ModernSonicController.cs:159-172 | A launch sets homingUsed and the cooldown (already decremented once) and shows the ball. It heads toward the chosen target with vertical 0, or forward with gravity kept. A running slide overrides the heading, a stomp the vertical. |
| ControllerFacts.NoHomingLaunch | SCR/ModernSonicController.cs:221 | Without a launch the homing timer drops by dt with no floor, and in the air homingUsed is kept. |
| ControllerFacts.HomingUsedClearedOnlyByGroundedJump | SCR/ModernSonicController.cs:142-146 | homingUsed is cleared only by a free, grounded frame with a jump. |
| ControllerFacts.StompTick | SCR/ModernSonicController.cs:173-178 | A stomp sets stompSpeed and the flag. While stomping it cannot fire again, so the vertical only falls by gravity or is flattened by a homing launch onto a target. |
| ControllerFacts.StompEndsOnlyOnLanding | SCR/ModernSonicController.cs:204-208 | A stomp ends only on a free grounded frame with no slide left. Every such frame ends the stomp and the ball. |
| ControllerFacts.BallLeftOnlyByLandingOrSlideEnd | SCR/ModernSonicController.cs:194-208 | The ball is left only on a free frame that ends with no slide, either on the ground or because a slide ran out. |
| ControllerFacts.SlideTick | SCR/ModernSonicController.cs:194-203 | A running or starting slide counts its timer down, is still on exactly while the timer is above 0, and forces the move along the facing at slideSpeed. Without one, slide state is untouched. |
| ControllerFacts.SlideAndStompCoexist | SCR/ModernSonicController.cs:204-208 | A grounded action while stomping starts a slide and keeps the stomp flag. |
| ControllerFacts.QuickStepStart | SCR/ModernSonicController.cs:181-192 | A quick-step starts exactly when the timer after this frame's decrement is ≤ 0, the character is grounded, the new speed exceeds 0.6·runSpeedMax and a button is pressed. Left wins. |
| ControllerFacts.QuickStepsResumed | SCR/ModernSonicController.cs:181-192 | A free frame with neither quick-step button starts no step, resumes the ones in flight, and sets the cooldown exactly when one finishes; otherwise it counts the timer down. |
| ControllerFacts.QuickStepCooldown | SCR/ModernSonicController.cs:389-405 | The cooldown is set only when an in-flight step finishes. Otherwise a free frame counts it down with no floor and a ride leaves it alone. |
| ControllerFacts.SecondQuickStepInFlight | SCR/ModernSonicController.cs:182-192 | The gate lets a second step start while the first is still running. |
| ControllerFacts.PlanarLock | SCR/ModernSonicController.cs:210-219 | In 2D a free frame puts x back to 0 after the move. Otherwise x is where the move left it. |
| ControllerFacts.RideIgnoresLock | SCR/ModernSonicController.cs:289-312 | A ride frame does not apply the 2D lock. x is where the move left it exactly when the follower reached the move toward its waypoint; on an empty path, an out-of-range index or a null entry it is unchanged. |
| ControllerFacts.CoastTick | SCR/ModernSonicController.cs:133-135 | A free frame without an input direction stays free and takes exactly one MoveTowards step toward 0 at that frame's budget. |
| ControllerFacts.NoSteeringWithoutControl | SCR/ModernSonicController.cs:110-113 | Without control a free frame has no drift and no stick-directed move. |
| ControllerFacts.RideTick | SCR/ModernSonicController.cs:89-104 | A ride frame takes control away and steps exactly one follower, the rail first. No free-locomotion field changes. A move toward the current waypoint at railSpeed or autoMoveSpeed is requested exactly when the follower has one. The quick-steps in flight keep being resumed. |
| ControllerFacts.EmptyPathFreezes | SCR/ModernSonicController.cs:289-323 | On an empty path, once no quick-step is in flight, a frame does nothing but hold control off and requests no move. |
| ControllerFacts.TakeDamageTwice | SCR/ModernSonicController.cs:341-353 | A second hit right after one that cost the rings only reports defeat. |
| ControllerFacts.AddRingsZero | SCR/ModernSonicController.cs:381-387 | Adding zero rings to an in-range gauge changes nothing. |
| ControllerFacts.AddRingsAdditive | SCR/ModernSonicController.cs:381-387 | Two pickups of non-negative amounts equal one pickup of their sum, cap included. |
| ControllerFacts.RingCountedTwice | SCR/Ring.cs:30-45 | A "Ring"-tagged collider's own AddRings(1) plus the controller's trigger count the ring twice. |
| Runs.LatchHoldsInAir | SCR/ModernSonicController.cs:159-172 | In the air homingUsed, once set or just set by a launch, stays set. |
| Runs.AtMostOneHomingPerFlight | SCR/ModernSonicController.cs:159-171 | Over any airborne run at most one homing attack fires, and none if the latch was already set. |
| Runs.ControlLostForever | SCR/ModernSonicController.cs:87-110 | Once control is gone no run gives it back. |
| Runs.CoastDecays | SCR/ModernSonicController.cs:133-135 | Off the paths with no intent and a fixed boost hold and frame time, the speed after n frames is n MoveTowards steps toward 0, and the character stays off the paths. |
| Runs.RunKeepsValid | SCR/ModernSonicController.cs:122-131 | The invariant holds along every run of non-negative frame times, and so does the speed range under non-negative tuning. |
| Runs.RideIsWalk | SCR/ModernSonicController.cs:289-305 | Along a run started on the rail, the rail follower is the follower's walk over the frames' proximity answers. |
| Runs.RailStaysOff | SCR/ModernSonicController.cs:289-305 | Once off, the rail stays off and unchanged over any run of frames: only StartRail switches it on. |
| Runs.EmptyRailNeverEnds | SCR/ModernSonicController.cs:291 | A rail on an empty path stays on, unchanged, forever. |
| Runs.AutoStaysOff | SCR/ModernSonicController.cs:307-323 | With both followers off, no run of frames switches either back on or changes it. |
| Runs.AutoIsWalk | SCR/ModernSonicController.cs:307-323 | Along a run with the rail off and auto-move on, the auto-move follower is the follower's walk over the frames' proximity answers. |
| Runs.QuickStepLands | SCR/ModernSonicController.cs:389-405 | Over free frames of length dt with no quick-step button, a step alone in flight is gone after its Lifetime plus one frames, and the cooldown is then quickStepCooldown. |

## Left out

- Vector and quaternion math is left out: `normalized`, `Quaternion.Slerp` and `LookRotation`, `Vector3.Angle` and `Vector3.Distance`. These are float numerics in Unity types. They become the intent flag, the candidate angles and the proximity flag, and the facing and rotation speeds (`rotationSpeed`, `driftTurnSpeed`) are not modelled.
- Engine calls are parameters, not modelled: `CharacterController.Move`, `isGrounded` and `velocity`, `Physics.OverlapSphere` with `homingRange` and the layer mask, `Destroy`, and `Camera.main`.
- `GetInput` (SCR/ModernSonicController.cs:232-256) is platform input polling; its results are the `Input` record. `GetInputDir` becomes `hasIntent`.
- Presentation is left out except for the `ballMode` flag: the Animator and UI writes (:222-229), the GameObject toggling in `SetBallMode` and `Start`, and `Debug.Log`, which survives only as `TakeDamage`'s report.
- The quick-step's lateral `Vector3.Lerp` and its final position write are left out; only the timing and the cooldown hand-off are modelled. As written, that position write happens after the 2D x-lock and could move x off 0 in 2D; the model does not track it.
- The requested move is a `Request` value, not a displacement. Its direction vectors are named (`AlongIntent`, `AlongFacing`, `TowardTarget`) rather than computed.
- Controller.AddRings: `ringCount` is a 32-bit `int` in C# but unbounded here, so its wrap-around at 2^31 is not modelled; the same holds for the increment in Controller.OnTriggerEnter.
- Floats are exact rationals here, so float rounding is not modelled.
- The events (`StartRail`, `StartAutoMove`, `TakeDamage`, `AddRings`, `OnTriggerEnter`) are modelled between frames. Unity's physics callbacks run in their own phase of the frame, which the model does not order.
- `deceleration` is declared (:18) but never read; `MoveTowards` uses the acceleration constant when slowing too.
- `Mathf.MoveTowards` is engine code, modelled from its documented behaviour with `Mathf.Sign(0) = 1`.
- An out-of-range follower index, or a null entry at the index, throws in C#. The model makes either a no-op leg with control still taken away. The out-of-range case is unreachable, because every operation keeps the index valid; the null case is reachable and freezes the character at that waypoint (`PathFollow.NullWaypointStalls`).
- The other scripts in SCR/ are not part of this model: the start menu, the camera, the ring's rotation and collect-once latch, the UI ring counter, and RailPath, which is only the waypoint array the followers take.

=== FILE: boost.dfy ===
/** The boost gauge: drained while boosting, regenerated otherwise, refilled by rings. */
module Boost {

  import opened Settings

  predicate InRange(e: real)
  {
    0.0 <= e <= BoostMax
  }

  /** The gauge drains this tick exactly when boost is held and fuel remains. */
  predicate Draining(e: real, held: bool)
  {
    held && e > 0.0
  }

  /** One tick of the gauge: the drain is floored at 0, the regeneration capped at BoostMax. */
  function Regulate(e: real, held: bool, dt: real): (r: real)
    ensures dt >= 0.0 && InRange(e) ==> InRange(r)
    ensures Draining(e, held) ==> 0.0 <= r
    ensures !Draining(e, held) ==> r <= BoostMax
    ensures dt >= 0.0 && Draining(e, held) ==> e - BoostDrainRate * dt <= r <= e
    ensures dt >= 0.0 && !Draining(e, held) && e <= BoostMax ==> e <= r <= e + BoostRegenRate * dt
    ensures Draining(e, held) && r > 0.0 ==> r == e - BoostDrainRate * dt
    ensures !Draining(e, held) && r < BoostMax ==> r == e + BoostRegenRate * dt
  {
    if Draining(e, held) then
      var d := e - BoostDrainRate * dt;
      if d < 0.0 then 0.0 else d
    else
      var g := e + BoostRegenRate * dt;
      if g > BoostMax then BoostMax else g
  }

  /** The gauge part of AddRings: two units per ring, capped at the top only. */
  function Refill(e: real, amount: int): (r: real)
    ensures r <= BoostMax
    ensures amount >= 0 && e <= BoostMax ==> e <= r
    ensures amount == 0 && e <= BoostMax ==> r == e
    ensures amount >= 0 && InRange(e) ==> InRange(r)
    ensures r < BoostMax ==> r == e + RingBoost * amount as real
  {
    var g := e + RingBoost * amount as real;
    if g > BoostMax then BoostMax else g
  }
}

=== FILE: controller.dfy ===
/**
 ModernSonicController: the per-frame locomotion state machine and the
 events other objects send it. Unity's engine calls become values: the
 input snapshot, and per-tick oracles for the frame time, the
 character-controller's ground contact and achieved x coordinate, the
 homing candidates' angles and the waypoint proximity test.
 */
module Controller {

  import opened Optional
  import opened Settings
  import Boost
  import Speed
  import Homing
  import PathFollow
  import QuickStep

  datatype State = State(
    currentSpeed: real,
    verticalVelocity: real,
    boostEnergy: real,
    quickStepTimer: real,
    slideTimer: real,
    homingTimer: real,
    isSliding: bool,
    isStomping: bool,
    isDrifting: bool,
    homingUsed: bool,
    /** Whether the ball model is shown instead of the character model. */
    ballMode: bool,
    is2D: bool,
    canControl: bool,
    /** railPoints, railIndex and isOnRail. */
    rail: PathFollow.Follower,
    /** autoPath, autoIndex and autoMoving. */
    auto: PathFollow.Follower,
    ringCount: int,
    /** The x coordinate of the transform, the one the 2D lock writes. */
    posX: real,
    /** The quick-step coroutines in flight. */
    quickSteps: seq<QuickStep.Step>)

  /**
   One frame's input. hasIntent stands for the camera-relative input
   direction having magnitude above 0.1; the others are the key holds and
   key-down edges.
   */
  datatype Input = Input(
    hasIntent: bool,
    boost: bool,
    jump: bool,
    quickLeft: bool,
    quickRight: bool,
    drift: bool,
    action: bool)

  /** What the engine answers during one frame. */
  datatype Oracles = Oracles(
    dt: real,
    grounded: bool,
    /** Angles from the facing to each homing candidate in range, in query order. */
    candidates: seq<real>,
    /** The follower ended the tick within 0.5 of its waypoint. */
    withinThreshold: bool,
    /** The x coordinate after CharacterController.Move. */
    achievedX: real)

  /** The horizontal part of the move requested from the character controller. */
  datatype Heading =
    | Still                                      // the input direction is the zero vector
    | AlongIntent(speed: real)                   // along the input direction
    | AlongFacing(speed: real)                   // along transform.forward
    | TowardTarget(candidate: nat, speed: real)  // toward a homing candidate

  /** The displacement requested this frame, per second of frame time. */
  datatype Request =
    | NoMove
    | FreeMove(heading: Heading, vertical: real)
    | WaypointMove(waypoint: nat, speed: real)

  datatype TickResult = TickResult(state: State, request: Request)

  /** The controller after Start: full gauge, everything else at rest, the inspector's mode fields as given. */
  function Initial(is2D: bool, railPoints: seq<PathFollow.Waypoint>, isOnRail: bool,
                   autoPath: seq<PathFollow.Waypoint>, autoMoving: bool, x: real): (s: State)
    ensures Valid(s)
    ensures s.canControl && !s.ballMode && s.quickSteps == []
  {
    State(
      currentSpeed := 0.0, verticalVelocity := 0.0, boostEnergy := InitialBoost,
      quickStepTimer := 0.0, slideTimer := 0.0, homingTimer := 0.0,
      isSliding := false, isStomping := false, isDrifting := false, homingUsed := false,
      ballMode := false, is2D := is2D, canControl := true,
      rail := PathFollow.Follower(railPoints, 0, isOnRail),
      auto := PathFollow.Follower(autoPath, 0, autoMoving),
      ringCount := 0, posX := x, quickSteps := [])
  }

  /** The invariant every event and every tick keeps. */
  predicate Valid(s: State)
  {
    && Boost.InRange(s.boostEnergy)
    && PathFollow.WellFormed(s.rail)
    && PathFollow.WellFormed(s.auto)
  }

  /** The larger of the two speed tiers. */
  function TopSpeed(c: Config): real
  {
    if c.boostSpeed >= c.runSpeedMax then c.boostSpeed else c.runSpeedMax
  }

  /** The run speed lies between 0 and the faster tier. Valid has no configuration, so this invariant is separate. */
  predicate SpeedInRange(c: Config, s: State)
  {
    0.0 <= s.currentSpeed <= TopSpeed(c)
  }

  /** Neither follower is on: the frame runs free locomotion. */
  predicate Free(s: State)
  {
    !s.rail.active && !s.auto.active
  }

  /** The input direction survives: control was never taken away and the stick is pushed. */
  predicate Intent(s: State, i: Input)
  {
    s.canControl && i.hasIntent
  }

  /** The homing attack fires: airborne, jump pressed, not yet used in this flight, cooldown seen as elapsed. */
  predicate HomingGuard(s: State, i: Input, grounded: bool)
  {
    !grounded && i.jump && !s.homingUsed && s.homingTimer <= 0.0
  }

  /** The stomp fires: airborne, action pressed, not already stomping. */
  predicate StompGuard(s: State, i: Input, grounded: bool)
  {
    !grounded && i.action && !s.isStomping
  }

  /** A quick-step may start: cooldown elapsed (after this tick's decrement), grounded, fast enough. */
  predicate QuickStepOpen(c: Config, timer: real, grounded: bool, speed: real)
  {
    timer <= 0.0 && grounded && speed > c.runSpeedMax * QuickStepGate
  }

  /** The vertical velocity after one tick of gravity. */
  function Fallen(c: Config, v: real, dt: real): real
  {
    v - c.gravity * dt
  }

  /** Reduced air control scales a move along the input direction. */
  function AirScale(h: Heading, k: real): Heading
  {
    match h
    case AlongIntent(v) => AlongIntent(v * k)
    case _ => h
  }

  /** The run speed after this tick's MoveTowards step toward the chosen tier, the gauge read after its own update. */
  function RunSpeed(c: Config, s: State, i: Input, dt: real): real
  {
    var energy := Boost.Regulate(s.boostEnergy, i.boost, dt);
    Speed.MoveTowards(s.currentSpeed, Speed.Target(c, i.boost, energy, Intent(s, i)), Speed.Budget(c, i.boost, dt))
  }

  /** The quick-step coroutine this tick starts, if any; left wins over right. */
  function QuickStepLaunch(open: bool, i: Input, dt: real): (r: seq<QuickStep.Step>)
    ensures |r| <= 1
  {
    if open && i.quickLeft then [QuickStep.Launch(QuickStep.Left, dt)]
    else if open && i.quickRight then [QuickStep.Launch(QuickStep.Right, dt)]
    else []
  }

  // Each field that free locomotion writes, as Update leaves it.

  /** :139-179, the grounded and airborne branches, on the vertical velocity; a stomp overrides a homing launch. */
  function VerticalAfter(c: Config, s: State, i: Input, o: Oracles): real
  {
    if o.grounded then (if i.jump then c.jumpPower else GroundBias)
    else if StompGuard(s, i, o.grounded) then c.stompSpeed
    else if HomingGuard(s, i, o.grounded) && Homing.FindTarget(o.candidates).Some? then 0.0
    else Fallen(c, s.verticalVelocity, o.dt)
  }

  /** A grounded jump clears the homing latch, a homing launch sets it. */
  function HomingUsedAfter(s: State, i: Input, grounded: bool): bool
  {
    if grounded then s.homingUsed && !i.jump else s.homingUsed || HomingGuard(s, i, grounded)
  }

  /** A launch restarts the cooldown; either way it is decremented once, after the move, with no floor. */
  function HomingTimerAfter(c: Config, s: State, i: Input, o: Oracles): real
  {
    (if HomingGuard(s, i, o.grounded) then c.homingCooldown else s.homingTimer) - o.dt
  }

  /** The action button on the ground starts a slide. */
  predicate SlideStart(i: Input, grounded: bool)
  {
    grounded && i.action
  }

  /** A slide runs this tick: it was running or starts now. */
  predicate SlideRuns(s: State, i: Input, grounded: bool)
  {
    s.isSliding || SlideStart(i, grounded)
  }

  /** The slide timer: reset by a slide start, then decremented in the same tick while a slide runs. */
  function SlideTimerAfter(c: Config, s: State, i: Input, o: Oracles): real
  {
    var t := if SlideStart(i, o.grounded) then c.slideDuration else s.slideTimer;
    if SlideRuns(s, i, o.grounded) then t - o.dt else t
  }

  /** A running slide ends once its timer is spent. */
  predicate SlideEnds(c: Config, s: State, i: Input, o: Oracles)
  {
    SlideRuns(s, i, o.grounded) && SlideTimerAfter(c, s, i, o) <= 0.0
  }

  predicate SlidingAfter(c: Config, s: State, i: Input, o: Oracles)
  {
    SlideRuns(s, i, o.grounded) && !SlideEnds(c, s, i, o)
  }

  /** Grounded with no slide left running: the landing resolution fires. */
  predicate Landed(c: Config, s: State, i: Input, o: Oracles)
  {
    o.grounded && !SlidingAfter(c, s, i, o)
  }

  predicate StompingAfter(c: Config, s: State, i: Input, o: Oracles)
  {
    (s.isStomping || StompGuard(s, i, o.grounded)) && !Landed(c, s, i, o)
  }

  /** Slide start, homing launch and stomp show the ball; a slide ending and a landing hide it. */
  predicate BallAfter(c: Config, s: State, i: Input, o: Oracles)
  {
    && (s.ballMode || SlideStart(i, o.grounded) || HomingGuard(s, i, o.grounded) || StompGuard(s, i, o.grounded))
    && !SlideEnds(c, s, i, o)
    && !Landed(c, s, i, o)
  }

  /** The horizontal move: the stick's direction at the run speed (scaled in the air), a homing launch, or the slide. */
  function MoveAfter(c: Config, s: State, i: Input, o: Oracles): Heading
  {
    var walk := if Intent(s, i) then AlongIntent(RunSpeed(c, s, i, o.dt)) else Still;
    var target := Homing.FindTarget(o.candidates);
    if SlideRuns(s, i, o.grounded) then AlongFacing(c.slideSpeed)
    else if o.grounded then walk
    else if HomingGuard(s, i, o.grounded) then
      (if target.Some? then TowardTarget(target.value, c.homingSpeed) else AlongFacing(c.homingSpeed))
    else AirScale(walk, c.airControl)
  }

  /** The in-flight quick-steps with the one this tick's gate starts, if any. */
  function QuickStepsAfter(c: Config, s: State, i: Input, o: Oracles): (r: seq<QuickStep.Step>)
    ensures s.quickSteps <= r && |r| <= |s.quickSteps| + 1
  {
    var open := QuickStepOpen(c, s.quickStepTimer - o.dt, o.grounded, RunSpeed(c, s, i, o.dt));
    s.quickSteps + QuickStepLaunch(open, i, o.dt)
  }

  /** Update when neither follower is on. */
  function FreeUpdate(c: Config, s: State, i: Input, o: Oracles): (r: TickResult)
    ensures s.quickSteps <= r.state.quickSteps && |r.state.quickSteps| <= |s.quickSteps| + 1
    ensures r.state.rail == s.rail && r.state.auto == s.auto && r.state.canControl == s.canControl
  {
    var s' := s.(
      currentSpeed := RunSpeed(c, s, i, o.dt),
      verticalVelocity := VerticalAfter(c, s, i, o),
      boostEnergy := Boost.Regulate(s.boostEnergy, i.boost, o.dt),
      quickStepTimer := s.quickStepTimer - o.dt,
      slideTimer := SlideTimerAfter(c, s, i, o),
      homingTimer := HomingTimerAfter(c, s, i, o),
      isSliding := SlidingAfter(c, s, i, o),
      isStomping := StompingAfter(c, s, i, o),
      isDrifting := i.drift && o.grounded && Intent(s, i),
      homingUsed := HomingUsedAfter(s, i, o.grounded),
      ballMode := BallAfter(c, s, i, o),
      // The 2D lock, applied after the move.
      posX := if s.is2D then 0.0 else o.achievedX,
      quickSteps := QuickStepsAfter(c, s, i, o));
    TickResult(s', FreeMove(MoveAfter(c, s, i, o), s'.verticalVelocity))
  }

  // ---- Update, on a path ---------------------------------------------------

  /** The move a follower step requests: toward its waypoint at the path's speed, or none when the handler returned or threw. */
  function Toward(leg: PathFollow.Leg, speed: real): Request
  {
    if leg.target.Some? then WaypointMove(leg.target.value, speed) else NoMove
  }

  /** The x coordinate after a follower step: moved only when the handler reached its Move call. */
  function RideX(leg: PathFollow.Leg, x: real, o: Oracles): real
  {
    if leg.target.Some? then o.achievedX else x
  }

  /** Update while a follower is on: control is taken away and one follower step runs (the rail first). */
  function RideUpdate(c: Config, s: State, o: Oracles): (r: TickResult)
    requires !Free(s)
  {
    if s.rail.active then
      var leg := PathFollow.Follow(s.rail, o.withinThreshold);
      TickResult(s.(canControl := false, rail := leg.follower, posX := RideX(leg, s.posX, o)), Toward(leg, c.railSpeed))
    else
      var leg := PathFollow.Follow(s.auto, o.withinThreshold);
      TickResult(s.(canControl := false, auto := leg.follower, posX := RideX(leg, s.posX, o)), Toward(leg, c.autoMoveSpeed))
  }

  /** The controller's Update, with the rail and auto-move branches returning early. */
  function Update(c: Config, s: State, i: Input, o: Oracles): (r: TickResult)
    ensures s.quickSteps <= r.state.quickSteps && |r.state.quickSteps| <= |s.quickSteps| + 1
    ensures !Free(s) ==> !r.state.canControl && r.state.quickSteps == s.quickSteps
    ensures r.state.canControl ==> s.canControl
  {
    if Free(s) then FreeUpdate(c, s, i, o) else RideUpdate(c, s, o)
  }

  /**
   One frame: Update, then the quick-step coroutines that were in flight
   before it resume; one that finishes sets the cooldown. A step started in
   this Update already ran its first segment and waits for the next frame.
   */
  function Tick(c: Config, s: State, i: Input, o: Oracles): (r: TickResult)
    ensures r.state.canControl ==> Free(s) && s.canControl
    ensures var u := Update(c, s, i, o);
      && r.request == u.request
      && r.state == u.state.(quickSteps := r.state.quickSteps, quickStepTimer := r.state.quickStepTimer)
  {
    var u := Update(c, s, i, o);
    var n := |s.quickSteps|;
    // Update only appends to the steps in flight, so these are u.state.quickSteps[..n].
    var resumed := QuickStep.Resume(s.quickSteps, o.dt);
    TickResult(
      u.state.(
        quickSteps := resumed.pending + u.state.quickSteps[n..],
        quickStepTimer := if resumed.finished > 0 then c.quickStepCooldown else u.state.quickStepTimer),
      u.request)
  }

  // ---- Events --------------------------------------------------------------

  /** StartRail: take the points, start at the first one, show the ball. */
  function StartRail(s: State, points: seq<PathFollow.Waypoint>): (r: State)
    ensures r.rail.active && r.rail.index == 0 && r.rail.path == points && r.ballMode
    ensures r == s.(rail := r.rail, ballMode := true)
  {
    s.(rail := PathFollow.Start(points), ballMode := true)
  }

  /** StartAutoMove: the same start on the auto-move path; it shows the ball too. */
  function StartAutoMove(s: State, path: seq<PathFollow.Waypoint>): (r: State)
    ensures r.auto.active && r.auto.index == 0 && r.auto.path == path && r.ballMode
    ensures r == s.(auto := r.auto, ballMode := true)
  {
    s.(auto := PathFollow.Start(path), ballMode := true)
  }

  /** What TakeDamage logs. */
  datatype DamageReport = RingsLost | Defeated

  datatype Damaged = Damaged(state: State, report: DamageReport)

  /** TakeDamage: with rings, lose all of them and the whole gauge; without, report defeat and change nothing. */
  function TakeDamage(s: State): (r: Damaged)
    ensures s.ringCount > 0 ==> r.report == RingsLost && r.state == s.(ringCount := 0, boostEnergy := 0.0)
    ensures s.ringCount <= 0 ==> r.report == Defeated && r.state == s
  {
    if s.ringCount > 0 then Damaged(s.(ringCount := 0, boostEnergy := 0.0), RingsLost)
    else Damaged(s, Defeated)
  }

  /** AddRings: count the rings and refill the gauge by two per ring, capped at the top. */
  function AddRings(s: State, amount: int): (r: State)
    ensures r.ringCount == s.ringCount + amount
    ensures r.boostEnergy <= BoostMax
    ensures amount >= 0 && s.boostEnergy <= BoostMax ==> s.boostEnergy <= r.boostEnergy
    ensures r == s.(ringCount := r.ringCount, boostEnergy := r.boostEnergy)
  {
    s.(ringCount := s.ringCount + amount, boostEnergy := Boost.Refill(s.boostEnergy, amount))
  }

  /** The tags OnTriggerEnter distinguishes; Other stands for every other tag, and for none. */
  datatype Tag = Ring | To2D | To3D | RailStart | AutoMoveStart | Other

  /**
   OnTriggerEnter: a "Ring" collider is counted (without gauge), the zone
   tags switch the 2D lock, and the start tags begin a follower on the
   collider's RailPath points when it has a RailPath component.
   */
  function OnTriggerEnter(s: State, tag: Tag, railPath: Option<seq<PathFollow.Waypoint>>): (r: State)
    ensures r.boostEnergy == s.boostEnergy && r.canControl == s.canControl
    ensures r.ringCount == s.ringCount + (if tag == Ring then 1 else 0)
    ensures r.is2D == (if tag == To2D then true else if tag == To3D then false else s.is2D)
    ensures r.rail != s.rail ==> tag == RailStart && railPath.Some?
    ensures r.auto != s.auto ==> tag == AutoMoveStart && railPath.Some?
    ensures tag == RailStart && railPath.Some? ==> r == StartRail(s, railPath.value)
    ensures tag == AutoMoveStart && railPath.Some? ==> r == StartAutoMove(s, railPath.value)
    ensures tag == Other || (tag in {RailStart, AutoMoveStart} && railPath.None?) ==> r == s
    ensures tag in {Ring, To2D, To3D} ==> r == s.(ringCount := r.ringCount, is2D := r.is2D)
  {
    match tag
    case Ring => s.(ringCount := s.ringCount + 1)
    case To2D => s.(is2D := true)
    case To3D => s.(is2D := false)
    case RailStart => if railPath.Some? then StartRail(s, railPath.value) else s
    case AutoMoveStart => if railPath.Some? then StartAutoMove(s, railPath.value) else s
    case Other => s
  }
}

=== FILE: controller_facts.dfy ===
/** What one frame, and each event, of the controller guarantees. */
module ControllerFacts {

  import opened Optional
  import opened Settings
  import Boost
  import Speed
  import Homing
  import PathFollow
  import QuickStep
  import opened Controller

  // ---- Invariant -----------------------------------------------------------

  /** Every tick keeps the gauge in range and the follower indices valid. */
  lemma TickKeepsValid(c: Config, s: State, i: Input, o: Oracles)
    requires Valid(s) && o.dt >= 0.0
    ensures Valid(Tick(c, s, i, o).state)
  {
    if Free(s) {
      FreeTickKeepsValid(c, s, i, o);
    } else {
      RideTickKeepsValid(c, s, i, o);
    }
  }

  lemma FreeTickKeepsValid(c: Config, s: State, i: Input, o: Oracles)
    requires Valid(s) && o.dt >= 0.0 && Free(s)
    ensures Valid(Tick(c, s, i, o).state)
  {
    assert Boost.InRange(Boost.Regulate(s.boostEnergy, i.boost, o.dt));
  }

  lemma RideTickKeepsValid(c: Config, s: State, i: Input, o: Oracles)
    requires Valid(s) && !Free(s)
    ensures Valid(Tick(c, s, i, o).state)
  {
    RideTick(c, s, i, o);
  }

  /** The run speed stays between 0 and the faster tier on every tick, so the no-intent decay applies to every reachable state. */
  lemma TickKeepsSpeedInRange(c: Config, s: State, i: Input, o: Oracles)
    requires Sane(c) && o.dt >= 0.0 && SpeedInRange(c, s)
    ensures SpeedInRange(c, Tick(c, s, i, o).state)
  {
    if Free(s) {
      FreeTickKeepsSpeed(c, s, i, o);
    } else {
      RideTick(c, s, i, o);
    }
  }

  lemma FreeTickKeepsSpeed(c: Config, s: State, i: Input, o: Oracles)
    requires Sane(c) && o.dt >= 0.0 && SpeedInRange(c, s) && Free(s)
    ensures SpeedInRange(c, Tick(c, s, i, o).state)
  {
    Speed.BudgetSign(c, i.boost, o.dt);
    assert Tick(c, s, i, o).state.currentSpeed == RunSpeed(c, s, i, o.dt);
  }

  /** The controller starts at rest, inside the speed range of any sane tuning. */
  lemma InitialSpeedInRange(c: Config, is2D: bool, railPoints: seq<PathFollow.Waypoint>, isOnRail: bool,
                            autoPath: seq<PathFollow.Waypoint>, autoMoving: bool, x: real)
    requires Sane(c)
    ensures SpeedInRange(c, Initial(is2D, railPoints, isOnRail, autoPath, autoMoving, x))
  {
  }

  /** The follower starts keep the invariant. */
  lemma StartsKeepValid(s: State, points: seq<PathFollow.Waypoint>)
    requires Valid(s)
    ensures Valid(StartRail(s, points)) && Valid(StartAutoMove(s, points))
  {
  }

  /** Damage, ring pickups of a non-negative amount and trigger entries keep the invariant. */
  lemma PickupsKeepValid(s: State, amount: int, tag: Tag, railPath: Option<seq<PathFollow.Waypoint>>)
    requires Valid(s)
    ensures Valid(TakeDamage(s).state) && Valid(OnTriggerEnter(s, tag, railPath))
    ensures amount >= 0 ==> Valid(AddRings(s, amount))
  {
    if tag == RailStart && railPath.Some? {
      StartsKeepValid(s, railPath.value);
    } else if tag == AutoMoveStart && railPath.Some? {
      StartsKeepValid(s, railPath.value);
    }
  }

  // ---- Boost and speed -----------------------------------------------------

  /**
   The speed moves by at most one tick's budget, and it only rises past both
   its old value and runSpeedMax on the boosted tier: boost held, intent
   present, fuel left after this tick's drain.
   */
  lemma SpeedTierNeedsFuel(c: Config, s: State, i: Input, o: Oracles)
    requires Sane(c) && o.dt >= 0.0 && Free(s)
    ensures var r := Tick(c, s, i, o).state;
      && Speed.Abs(r.currentSpeed - s.currentSpeed) <= Speed.Budget(c, i.boost, o.dt)
      && (r.currentSpeed > s.currentSpeed && r.currentSpeed > c.runSpeedMax ==>
            i.boost && r.boostEnergy > 0.0 && Intent(s, i))
  {
    var energy := Boost.Regulate(s.boostEnergy, i.boost, o.dt);
    Speed.TierStep(c, i.boost, energy, Intent(s, i), s.currentSpeed, o.dt);
  }

  /**
   Without an input direction a free tick only slows the character down, to
   exactly zero once the speed is within one tick's budget, never below zero,
   and the move it requests never follows the stick.
   */
  lemma NoIntentSlowsDown(c: Config, s: State, i: Input, o: Oracles)
    requires Sane(c) && o.dt >= 0.0 && Free(s) && !Intent(s, i) && s.currentSpeed >= 0.0
    ensures var t := Tick(c, s, i, o);
      var budget := Speed.Budget(c, i.boost, o.dt);
      && 0.0 <= t.state.currentSpeed <= s.currentSpeed
      && (s.currentSpeed <= budget ==> t.state.currentSpeed == 0.0)
      && (s.currentSpeed > budget ==> t.state.currentSpeed == s.currentSpeed - budget)
      && !t.state.isDrifting
      && t.request.FreeMove? && !t.request.heading.AlongIntent?
  {
    Speed.BudgetSign(c, i.boost, o.dt);
  }

  /**
   Holding boost on an empty gauge takes the regeneration branch, so the
   gauge is above zero again when the tier is chosen: the target is
   boostSpeed on every such free tick.
   */
  lemma EmptyGaugeBoostTier(c: Config, s: State, i: Input, o: Oracles)
    requires Sane(c) && Free(s) && i.boost && s.boostEnergy == 0.0 && o.dt > 0.0
    ensures var r := Tick(c, s, i, o).state;
      r.boostEnergy > 0.0 && Speed.Tier(c, i.boost, r.boostEnergy) == c.boostSpeed
  {
  }

  /** So with intent, from runSpeedMax below boostSpeed, the speed passes runSpeedMax that very tick. */
  lemma EmptyGaugeStillBoosts(c: Config, s: State, i: Input, o: Oracles)
    requires Sane(c) && Free(s) && Intent(s, i) && i.boost && s.boostEnergy == 0.0 && o.dt > 0.0
    requires s.currentSpeed == c.runSpeedMax < c.boostSpeed && c.boostAcceleration > 0.0
    ensures var r := Tick(c, s, i, o).state;
      r.boostEnergy > 0.0 && r.currentSpeed > c.runSpeedMax
  {
    EmptyGaugeBoostTier(c, s, i, o);
    Speed.BudgetSign(c, i.boost, o.dt);
  }

  // ---- Grounded and airborne branches --------------------------------------

  /**
   On the ground the vertical velocity is the floor bias, or jumpPower on a
   jump, which alone clears homingUsed; an action starts a slide whose timer
   is already decremented once, so it only survives the tick when
   slideDuration exceeds dt.
   */
  lemma GroundedTick(c: Config, s: State, i: Input, o: Oracles)
    requires Free(s) && o.grounded
    ensures var r := Tick(c, s, i, o).state;
      && r.verticalVelocity == (if i.jump then c.jumpPower else GroundBias)
      && r.homingUsed == (s.homingUsed && !i.jump)
      && (i.action ==> r.slideTimer == c.slideDuration - o.dt)
      && (i.action ==> (r.isSliding <==> c.slideDuration - o.dt > 0.0))
      && (i.action ==> (r.ballMode <==> r.isSliding))
      && (!r.isSliding ==> !r.isStomping && !r.ballMode)
  {
  }

  /**
   The homing launch marks the flight, restarts the cooldown (already one
   tick down when the next tick reads it), shows the ball unless a slide
   ends this tick, and redirects the move: toward the selected candidate
   with a flat vertical, or forward when none qualifies. A running slide
   overrides the direction, a stomp the vertical.
   */
  lemma HomingLaunch(c: Config, s: State, i: Input, o: Oracles)
    requires Free(s) && HomingGuard(s, i, o.grounded)
    ensures var t := Tick(c, s, i, o);
      var r := t.state;
      var target := Homing.FindTarget(o.candidates);
      && r.homingUsed
      && r.homingTimer == c.homingCooldown - o.dt
      && (r.ballMode || (s.isSliding && !r.isSliding))
      && t.request.FreeMove?
      && t.request.heading ==
           (if s.isSliding then AlongFacing(c.slideSpeed)
            else if target.Some? then TowardTarget(target.value, c.homingSpeed)
            else AlongFacing(c.homingSpeed))
      && t.request.vertical ==
           (if StompGuard(s, i, o.grounded) then c.stompSpeed
            else if target.Some? then 0.0
            else Fallen(c, s.verticalVelocity, o.dt))
  {
  }

  /** Without a launch the cooldown keeps counting down with no floor, and in the air homingUsed is kept. */
  lemma NoHomingLaunch(c: Config, s: State, i: Input, o: Oracles)
    requires Free(s) && !HomingGuard(s, i, o.grounded)
    ensures var r := Tick(c, s, i, o).state;
      && r.homingTimer == s.homingTimer - o.dt
      && (!o.grounded ==> r.homingUsed == s.homingUsed)
  {
  }

  /** Only a free, grounded jump clears homingUsed; rides leave it alone. */
  lemma HomingUsedClearedOnlyByGroundedJump(c: Config, s: State, i: Input, o: Oracles)
    requires s.homingUsed && !Tick(c, s, i, o).state.homingUsed
    ensures Free(s) && o.grounded && i.jump
  {
  }

  /**
   In the air a stomp sets stompSpeed and the stomping flag; while already
   stomping it cannot fire again, so the vertical velocity only falls (or is
   flattened by a homing launch onto a target).
   */
  lemma StompTick(c: Config, s: State, i: Input, o: Oracles)
    requires Free(s) && !o.grounded
    ensures var r := Tick(c, s, i, o).state;
      var flat := HomingGuard(s, i, o.grounded) && Homing.FindTarget(o.candidates).Some?;
      && (StompGuard(s, i, o.grounded) ==> r.verticalVelocity == c.stompSpeed && r.isStomping)
      && (s.isStomping ==>
            r.isStomping && r.verticalVelocity == (if flat then 0.0 else Fallen(c, s.verticalVelocity, o.dt)))
      && (!i.action ==> r.isStomping == s.isStomping)
  {
  }

  /** A stomp ends only on a free grounded tick that leaves no slide running, and every such tick ends it and the ball form. */
  lemma StompEndsOnlyOnLanding(c: Config, s: State, i: Input, o: Oracles)
    ensures var r := Tick(c, s, i, o).state;
      && (s.isStomping && !r.isStomping ==> Free(s) && o.grounded && !r.isSliding)
      && (Free(s) && o.grounded && !r.isSliding ==> !r.isStomping && !r.ballMode)
  {
  }

  /** The ball form is left only by a free tick that ends with no slide, on the ground or because a slide ran out. */
  lemma BallLeftOnlyByLandingOrSlideEnd(c: Config, s: State, i: Input, o: Oracles)
    requires s.ballMode && !Tick(c, s, i, o).state.ballMode
    ensures Free(s) && !Tick(c, s, i, o).state.isSliding && (o.grounded || s.isSliding)
  {
  }

  // ---- Slide -------------------------------------------------------------------

  /**
   A running or starting slide overrides the move with slideSpeed along the
   facing, counts its timer down, and is still on exactly when the timer is
   above zero; without one the slide state is left alone.
   */
  lemma SlideTick(c: Config, s: State, i: Input, o: Oracles)
    requires Free(s)
    ensures var t := Tick(c, s, i, o);
      var r := t.state;
      var started := o.grounded && i.action;
      && (s.isSliding || started ==>
            && r.slideTimer == (if started then c.slideDuration else s.slideTimer) - o.dt
            && (r.isSliding <==> r.slideTimer > 0.0)
            && t.request.FreeMove? && t.request.heading == AlongFacing(c.slideSpeed))
      && (!s.isSliding && !started ==> !r.isSliding && r.slideTimer == s.slideTimer)
  {
  }

  /** Landing from a stomp with the action button starts a slide without ending the stomp: both flags are on. */
  lemma SlideAndStompCoexist(c: Config, s: State, i: Input, o: Oracles)
    requires Free(s) && o.grounded && i.action && s.isStomping && c.slideDuration > o.dt
    ensures Tick(c, s, i, o).state.isSliding && Tick(c, s, i, o).state.isStomping
  {
  }

  // ---- Quick-step ----------------------------------------------------------

  /** A quick-step starts exactly when the gate is open and a button is pressed; left wins over right. */
  lemma QuickStepStart(c: Config, s: State, i: Input, o: Oracles)
    requires Free(s)
    ensures var u := Update(c, s, i, o).state;
      var n := |s.quickSteps|;
      && (|u.quickSteps| == n + 1 <==>
            QuickStepOpen(c, s.quickStepTimer - o.dt, o.grounded, u.currentSpeed) && (i.quickLeft || i.quickRight))
      && (|u.quickSteps| == n + 1 ==>
            u.quickSteps[n] == QuickStep.Launch(if i.quickLeft then QuickStep.Left else QuickStep.Right, o.dt))
  {
  }

  /**
   The cooldown is set only when an in-flight step finishes; otherwise a free
   tick counts it down with no floor and a ride leaves it as it was.
   */
  lemma QuickStepCooldown(c: Config, s: State, i: Input, o: Oracles)
    ensures var r := Tick(c, s, i, o).state;
      r.quickStepTimer ==
        (if QuickStep.Resume(s.quickSteps, o.dt).finished > 0 then c.quickStepCooldown
         else if Free(s) then s.quickStepTimer - o.dt
         else s.quickStepTimer)
  {
    var u := Update(c, s, i, o).state;
    assert u.quickSteps[..|s.quickSteps|] == s.quickSteps;
  }

  /** The gate does not wait for a step in flight: a second one starts while the first is still running. */
  lemma SecondQuickStepInFlight(c: Config, s: State, i: Input, o: Oracles)
    requires Free(s) && |s.quickSteps| == 1 && QuickStep.Running(s.quickSteps[0]) && i.quickLeft
    requires QuickStepOpen(c, s.quickStepTimer - o.dt, o.grounded, RunSpeed(c, s, i, o.dt))
    ensures |Tick(c, s, i, o).state.quickSteps| == 2
  {
    var u := Update(c, s, i, o).state;
    assert |u.quickSteps| == 2;
    assert u.quickSteps[..1] == s.quickSteps;
  }

  // ---- Planar lock, control, rides -----------------------------------------

  /** In 2D a free tick puts x back to 0 after the move; otherwise x is where the move left it. */
  lemma PlanarLock(c: Config, s: State, i: Input, o: Oracles)
    requires Free(s)
    ensures Tick(c, s, i, o).state.posX == (if s.is2D then 0.0 else o.achievedX)
  {
    assert Tick(c, s, i, o).state.posX == FreeUpdate(c, s, i, o).state.posX;
  }

  /**
   A ride tick does not apply the lock: x is where the move toward the
   waypoint left it when the follower got as far as the move, and is
   unchanged when it returned or threw before it.
   */
  lemma RideIgnoresLock(c: Config, s: State, i: Input, o: Oracles)
    requires !Free(s)
    ensures var leg := PathFollow.Follow(if s.rail.active then s.rail else s.auto, o.withinThreshold);
      Tick(c, s, i, o).state.posX == (if leg.target.Some? then o.achievedX else s.posX)
  {
    var leg := PathFollow.Follow(if s.rail.active then s.rail else s.auto, o.withinThreshold);
    assert Tick(c, s, i, o).state.posX == RideUpdate(c, s, o).state.posX == RideX(leg, s.posX, o);
  }

  /**
   Without a quick-step button a free tick starts no step and resumes the
   ones in flight; the cooldown is set exactly when one of them finishes.
   */
  lemma QuickStepsResumed(c: Config, s: State, i: Input, o: Oracles)
    requires Free(s) && !i.quickLeft && !i.quickRight
    ensures var r := Tick(c, s, i, o).state;
      var res := QuickStep.Resume(s.quickSteps, o.dt);
      && Free(r)
      && r.quickSteps == res.pending
      && r.quickStepTimer == (if res.finished > 0 then c.quickStepCooldown else s.quickStepTimer - o.dt)
  {
    var u := FreeUpdate(c, s, i, o).state;
    assert u.quickSteps == s.quickSteps;
    assert u.quickSteps[|s.quickSteps|..] == [];
  }

  /** Without an input direction a free tick stays free and takes one MoveTowards step toward 0. */
  lemma CoastTick(c: Config, s: State, i: Input, o: Oracles)
    requires Free(s) && !i.hasIntent
    ensures var r := Tick(c, s, i, o).state;
      && Free(r)
      && r.currentSpeed == Speed.MoveTowards(s.currentSpeed, 0.0, Speed.Budget(c, i.boost, o.dt))
  {
    var u := FreeUpdate(c, s, i, o).state;
    assert Tick(c, s, i, o).state.currentSpeed == u.currentSpeed;
  }

  /** With control gone a free tick ignores the stick: no drift, no steering, and the speed only decays. */
  lemma NoSteeringWithoutControl(c: Config, s: State, i: Input, o: Oracles)
    requires Free(s) && !s.canControl
    ensures var t := Tick(c, s, i, o);
      && !t.state.canControl && !t.state.isDrifting
      && t.request.FreeMove? && !t.request.heading.AlongIntent?
  {
  }

  /**
   A ride tick takes control away and steps one follower, the rail first:
   nothing of free locomotion runs, and a move is requested toward the
   current waypoint at the path's speed.
   */
  lemma RideTick(c: Config, s: State, i: Input, o: Oracles)
    requires !Free(s)
    ensures var t := Tick(c, s, i, o);
      var r := t.state;
      var leg := PathFollow.Follow(if s.rail.active then s.rail else s.auto, o.withinThreshold);
      && r == s.(canControl := false, rail := r.rail, auto := r.auto, posX := r.posX,
                 quickSteps := r.quickSteps, quickStepTimer := r.quickStepTimer)
      && r.quickSteps == QuickStep.Resume(s.quickSteps, o.dt).pending
      && (s.rail.active ==> r.rail == leg.follower && r.auto == s.auto)
      && (!s.rail.active ==> r.auto == leg.follower && r.rail == s.rail)
      && (leg.target.Some? <==> t.request.WaypointMove?)
      && (t.request.WaypointMove? ==>
            t.request.waypoint == leg.target.value &&
            t.request.speed == (if s.rail.active then c.railSpeed else c.autoMoveSpeed))
  {
  }

  /** On an empty path the ride does nothing but take control away, tick after tick. */
  lemma EmptyPathFreezes(c: Config, s: State, i: Input, o: Oracles)
    requires (s.rail.active && |s.rail.path| == 0) || (!s.rail.active && s.auto.active && |s.auto.path| == 0)
    requires s.quickSteps == []
    ensures Tick(c, s, i, o) == TickResult(s.(canControl := false), NoMove)
  {
  }

  // ---- Events --------------------------------------------------------------

  /** After a hit that cost the rings, a second hit only reports defeat. */
  lemma TakeDamageTwice(s: State)
    ensures var d := TakeDamage(s);
      TakeDamage(d.state) == Damaged(d.state, Defeated)
  {
  }

  /** AddRings(0) changes nothing. */
  lemma AddRingsZero(s: State)
    requires s.boostEnergy <= BoostMax
    ensures AddRings(s, 0) == s
  {
  }

  /** Two pickups of non-negative amounts are one pickup of their sum, the cap included. */
  lemma AddRingsAdditive(s: State, a: int, b: int)
    requires a >= 0 && b >= 0
    ensures AddRings(AddRings(s, a), b) == AddRings(s, a + b)
  {
  }

  /** A ring collider tagged "Ring" is counted by its own AddRings and again by the controller's trigger. */
  lemma RingCountedTwice(s: State)
    ensures OnTriggerEnter(AddRings(s, 1), Ring, None).ringCount == s.ringCount + 2
  {
  }
}

=== FILE: homing.dfy ===
/**
 Homing-attack target selection. The overlap query and the angle between the
 facing and the direction to each hit are engine vector math; the model takes
 the resulting angles, in the order the query enumerates the hits.
 */
module Homing {

  import opened Optional
  import opened Settings

  /** Candidate k is the one the selection must return: inside the cone, strictly below every earlier angle, no larger than any later one. */
  ghost predicate IsBest(angles: seq<real>, k: nat)
  {
    && k < |angles|
    && angles[k] < HomingCone
    && (forall j :: 0 <= j < k ==> angles[k] < angles[j])
    && (forall j :: k < j < |angles| ==> angles[k] <= angles[j])
  }

  /** The foreach loop from candidate i on, carrying the running minimum and the best hit so far. */
  function Scan(angles: seq<real>, i: nat, minAngle: real, best: Option<nat>): Option<nat>
    requires i <= |angles|
    decreases |angles| - i
  {
    if i == |angles| then best
    else if angles[i] < minAngle then Scan(angles, i + 1, angles[i], Some(i))
    else Scan(angles, i + 1, minAngle, best)
  }

  /** What the loop has established after looking at the first i candidates. */
  ghost predicate ScanInvariant(angles: seq<real>, i: nat, minAngle: real, best: Option<nat>)
  {
    && i <= |angles|
    && (best.None? ==> minAngle == HomingCone && forall j :: 0 <= j < i ==> angles[j] >= HomingCone)
    && (best.Some? ==> IsBest(angles[..i], best.value) && minAngle == angles[best.value])
  }

  lemma {:induction false} ScanSound(angles: seq<real>, i: nat, minAngle: real, best: Option<nat>)
    requires ScanInvariant(angles, i, minAngle, best)
    ensures Scan(angles, i, minAngle, best).None? ==> forall j :: 0 <= j < |angles| ==> angles[j] >= HomingCone
    ensures Scan(angles, i, minAngle, best).Some? ==> IsBest(angles, Scan(angles, i, minAngle, best).value)
    decreases |angles| - i
  {
    if i < |angles| {
      assert angles[..i + 1][..i] == angles[..i];
      if angles[i] < minAngle {
        ScanSound(angles, i + 1, angles[i], Some(i));
      } else {
        ScanSound(angles, i + 1, minAngle, best);
      }
    } else {
      assert angles[..i] == angles;
    }
  }

  lemma BestIsUnique(angles: seq<real>, k: nat, m: nat)
    requires IsBest(angles, k) && IsBest(angles, m)
    ensures k == m
  {
  }

  /**
   FindHomingTarget: the index of the candidate with the strictly smallest
   angle below the cone, the first one on ties, none when every angle is at
   least the cone's half-angle.
   */
  function FindTarget(angles: seq<real>): (r: Option<nat>)
    ensures r.None? <==> forall j :: 0 <= j < |angles| ==> angles[j] >= HomingCone
    ensures forall k: nat :: IsBest(angles, k) <==> r == Some(k)
  {
    ScanSound(angles, 0, HomingCone, None);
    var r := Scan(angles, 0, HomingCone, None);
    assert r.Some? ==> IsBest(angles, r.value);
    assert forall k: nat :: IsBest(angles, k) ==> r == Some(k) by {
      forall k: nat | IsBest(angles, k)
        ensures r == Some(k)
      {
        if r.Some? {
          BestIsUnique(angles, k, r.value);
        }
      }
    }
    r
  }
}

=== FILE: optional.dfy ===
/** A value that may be missing: a Unity reference that may be null. */
module Optional {

  datatype Option<+T> = None | Some(value: T)
}

=== FILE: pathfollow.dfy ===
/**
 The waypoint follower behind both rail grinding and scripted auto-move.
 The two handlers of the controller are the same algorithm over different
 fields; here they are one. Positions are engine state: whether the
 character ended the tick within reach (0.5 units) of its current waypoint
 is an oracle.
 */
module PathFollow {

  import opened Optional

  /**
   A waypoint's position. The follower never reads the coordinates itself:
   the direction of the move and the proximity test are engine vector math.
   */
  datatype Point = Point(x: real, y: real, z: real)

  /** An entry of the Transform array: None for an unassigned or destroyed Transform. */
  type Waypoint = Option<Point>

  /** A path (null and empty behave alike), the index of the waypoint being approached, and whether the follower is on. */
  datatype Follower = Follower(path: seq<Waypoint>, index: nat, active: bool)

  /** Every entry of the path holds a Transform. */
  predicate Intact(path: seq<Waypoint>)
  {
    forall k :: 0 <= k < |path| ==> path[k].Some?
  }

  /** The index is a valid waypoint, or 0 for an empty path. */
  predicate WellFormed(f: Follower)
  {
    f.index < |f.path| || f.index == 0
  }

  /** The follower after one handler call, and the waypoint moved toward, if any. */
  datatype Leg = Leg(follower: Follower, target: Option<nat>)

  /**
   One HandleRail / HandleAutoMove call. An empty path returns at once; an
   index past the end, or a null entry at the index, throws when the target
   is read, before anything moves.
   */
  function Follow(f: Follower, within: bool): (r: Leg)
    ensures r.follower.path == f.path
    ensures |f.path| == 0 ==> r == Leg(f, None)
    ensures WellFormed(f) ==> WellFormed(r.follower)
    ensures r.target.Some? <==> f.index < |f.path| && f.path[f.index].Some?
    ensures r.target.Some? ==> r.target.value == f.index
    ensures r.follower != f ==> within && r.target.Some?
    ensures r.follower.active ==> f.active
    ensures r.target.Some? && within ==>
      if r.target.value + 1 < |f.path| then r.follower == f.(index := r.target.value + 1)
      else r.follower == f.(index := 0, active := false)
  {
    if |f.path| == 0 then Leg(f, None)
    else if f.index >= |f.path| then Leg(f, None)
    else if f.path[f.index].None? then Leg(f, None)
    else if !within then Leg(f, Some(f.index))
    else if f.index + 1 >= |f.path| then Leg(f.(index := 0, active := false), Some(f.index))
    else Leg(f.(index := f.index + 1), Some(f.index))
  }

  /** StartRail / StartAutoMove: take the path and begin at its first waypoint. */
  function Start(path: seq<Waypoint>): (f: Follower)
    ensures WellFormed(f) && f.active
    ensures f.path == path && f.index == 0
  {
    Follower(path, 0, true)
  }

  /** The follower after one tick per flag, stepped only while it is on (the controller stops calling it once it is off). */
  function Walk(f: Follower, within: seq<bool>): Follower
    decreases |within|
  {
    if |within| == 0 || !f.active then f
    else Walk(Follow(f, within[0]).follower, within[1..])
  }

  /** How many ticks ended within reach of the current waypoint. */
  function Reached(within: seq<bool>): nat
    decreases |within|
  {
    if |within| == 0 then 0 else (if within[0] then 1 else 0) + Reached(within[1..])
  }

  /**
   A follower on a non-empty path stays on, at index start + (waypoints
   reached), until it has reached the last waypoint; then it is off with
   index 0, and never before.
   */
  lemma {:induction false} WalkCompletes(f: Follower, within: seq<bool>)
    requires f.active && WellFormed(f) && |f.path| > 0 && Intact(f.path)
    ensures Reached(within) < |f.path| - f.index ==>
      Walk(f, within) == f.(index := f.index + Reached(within))
    ensures Reached(within) >= |f.path| - f.index ==>
      Walk(f, within) == f.(index := 0, active := false)
    decreases |within|
  {
    if |within| > 0 {
      var g := Follow(f, within[0]).follower;
      if g.active {
        WalkCompletes(g, within[1..]);
      } else {
        assert Walk(f, within) == g;
      }
    }
  }

  /** A null entry at the current index stops the follower for good: every call throws before the index can move. */
  lemma {:induction false} NullWaypointStalls(f: Follower, within: seq<bool>)
    requires f.index < |f.path| && f.path[f.index].None?
    ensures Walk(f, within) == f
    decreases |within|
  {
    if |within| > 0 && f.active {
      assert Follow(f, within[0]).follower == f;
      NullWaypointStalls(f, within[1..]);
    }
  }
}

=== FILE: quickstep.dfy ===
/**
 The PerformQuickStep coroutine as explicit data. Each started quick-step
 is an in-flight record that the engine resumes once per frame after the
 controller's Update; the lateral position interpolation is vector math and
 only the timing and the cooldown hand-off are kept.
 */
module QuickStep {

  import opened Settings

  datatype Side = Left | Right

  /** One in-flight quick-step: its side and the time it has run. */
  datatype Step = Step(side: Side, elapsed: real)

  /** The loop body still runs on the next resumption. */
  predicate Running(st: Step)
  {
    st.elapsed < QuickStepDuration
  }

  /**
   StartCoroutine runs the body up to its first yield at once: the loop guard
   holds for elapsed 0, so the step has already run for one tick.
   */
  function Launch(side: Side, dt: real): (st: Step)
    ensures st.side == side && st.elapsed == dt
  {
    Step(side, dt)
  }

  /** One more loop segment: the step has run dt longer. */
  function Advance(st: Step, dt: real): Step
  {
    st.(elapsed := st.elapsed + dt)
  }

  /** The steps still in flight after one resumption, and how many finished (each finishing one sets the cooldown). */
  datatype Resumed = Resumed(pending: seq<Step>, finished: nat)

  /** The positions of the steps whose loop guard fails on the next resumption. */
  ghost function Done(steps: seq<Step>): set<int>
  {
    set k | 0 <= k < |steps| && !Running(steps[k])
  }

  /** Every index of s, one further on. */
  ghost function Shift(s: set<int>): set<int>
  {
    set k | k in s :: k + 1
  }

  /** Shifting a set of indices below n keeps its size. */
  lemma {:induction false} ShiftSize(s: set<int>, n: nat)
    requires forall k :: k in s ==> 0 <= k < n
    ensures |Shift(s)| == |s|
    decreases n
  {
    if n > 0 {
      var low := set k | k in s && k < n - 1;
      var top: set<int> := if n - 1 in s then {n - 1} else {};
      ShiftSize(low, n - 1);
      assert s == low + top;
      assert Shift(s) == Shift(low) + Shift(top);
      assert Shift(top) == (if n - 1 in s then {n} else {});
    } else {
      assert s == {};
    }
  }

  /** Done splits at the first step. */
  lemma DoneSplit(steps: seq<Step>)
    requires |steps| > 0
    ensures |Done(steps)| == (if Running(steps[0]) then 0 else 1) + |Done(steps[1..])|
  {
    var tail := Shift(Done(steps[1..]));
    ShiftSize(Done(steps[1..]), |steps| - 1);
    assert 0 !in tail;
    forall k | k in Done(steps)
      ensures k in (if Running(steps[0]) then {} else {0}) + tail
    {
      if k > 0 {
        assert steps[1..][k - 1] == steps[k];
        assert k - 1 in Done(steps[1..]);
      }
    }
    forall k | k in tail
      ensures k in Done(steps)
    {
      var j :| j in Done(steps[1..]) && k == j + 1;
      assert steps[1..][j] == steps[k];
    }
    assert Done(steps) == (if Running(steps[0]) then {} else {0}) + tail;
  }

  /**
   One resumption of every step in flight: a step whose guard still holds
   runs one more segment and stays, a step whose guard fails finishes and
   leaves.
   */
  function Resume(steps: seq<Step>, dt: real): (r: Resumed)
    ensures |r.pending| + r.finished == |steps|
    ensures r.finished == |Done(steps)|
    ensures r.finished == 0 <==> forall k :: 0 <= k < |steps| ==> Running(steps[k])
    ensures r.finished == 0 ==> forall k :: 0 <= k < |steps| ==> r.pending[k] == Advance(steps[k], dt)
    ensures forall k :: 0 <= k < |r.pending| ==> r.pending[k].elapsed - dt < QuickStepDuration
    decreases |steps|
  {
    if |steps| == 0 then Resumed([], 0)
    else
      var rest := Resume(steps[1..], dt);
      DoneSplit(steps);
      if Running(steps[0]) then
        Resumed([Advance(steps[0], dt)] + rest.pending, rest.finished)
      else
        Resumed(rest.pending, rest.finished + 1)
  }

  /**
   What one resumption keeps, in both directions: every step whose guard
   still holds is pending with one more segment run, and every pending step
   is such a step.
   */
  lemma {:induction false} ResumeKeeps(steps: seq<Step>, dt: real)
    ensures var r := Resume(steps, dt);
      && (forall k :: 0 <= k < |steps| && Running(steps[k]) ==> Advance(steps[k], dt) in r.pending)
      && (forall p :: p in r.pending ==> exists k :: 0 <= k < |steps| && Running(steps[k]) && p == Advance(steps[k], dt))
    decreases |steps|
  {
    if |steps| > 0 {
      var rest := Resume(steps[1..], dt);
      var r := Resume(steps, dt);
      ResumeKeeps(steps[1..], dt);
      assert r.pending == if Running(steps[0]) then [Advance(steps[0], dt)] + rest.pending else rest.pending;
      forall k | 0 <= k < |steps| && Running(steps[k])
        ensures Advance(steps[k], dt) in r.pending
      {
        if k > 0 {
          assert steps[1..][k - 1] == steps[k];
        }
      }
      forall p | p in r.pending
        ensures exists k :: 0 <= k < |steps| && Running(steps[k]) && p == Advance(steps[k], dt)
      {
        if p in rest.pending {
          var j :| 0 <= j < |steps[1..]| && Running(steps[1..][j]) && p == Advance(steps[1..][j], dt);
          assert steps[j + 1] == steps[1..][j];
        } else {
          assert Running(steps[0]) && p == Advance(steps[0], dt);
        }
      }
    }
  }

  /** The steps in flight after n resumptions in a row, each dt long. */
  function Resumes(steps: seq<Step>, dt: real, n: nat): seq<Step>
    decreases n
  {
    if n == 0 then steps else Resumes(Resume(steps, dt).pending, dt, n - 1)
  }

  /** How many of the next n resumptions, each dt long, still run the loop body. */
  function Lifetime(st: Step, dt: real, n: nat): nat
    decreases n
  {
    if n == 0 || !Running(st) then 0 else 1 + Lifetime(Advance(st, dt), dt, n - 1)
  }

  /** With frames of length dt a step runs at most (QuickStepDuration - elapsed) / dt + 1 more times. */
  lemma {:induction false} StepFinishes(st: Step, dt: real, n: nat)
    requires dt > 0.0 && st.elapsed >= 0.0
    ensures !Running(st) ==> Lifetime(st, dt, n) == 0
    ensures Running(st) ==> Lifetime(st, dt, n) as real * dt <= QuickStepDuration - st.elapsed + dt
    decreases n
  {
    if n > 0 && Running(st) {
      var next := Advance(st, dt);
      StepFinishes(next, dt, n - 1);
      assert (1 + Lifetime(next, dt, n - 1)) as real * dt == dt + Lifetime(next, dt, n - 1) as real * dt;
    }
  }

  /**
   A step alone in flight stays in flight for its Lifetime resumptions and
   finishes, leaving nothing pending, on the one after.
   */
  lemma {:induction false} StepLands(st: Step, dt: real, n: nat)
    requires Lifetime(st, dt, n) < n
    ensures var m := Lifetime(st, dt, n);
      && (forall j :: 0 <= j <= m ==> |Resumes([st], dt, j)| == 1)
      && Resume(Resumes([st], dt, m), dt) == Resumed([], 1)
      && Resumes([st], dt, m + 1) == []
    decreases n
  {
    var m := Lifetime(st, dt, n);
    if !Running(st) {
      assert Resume([st], dt) == Resumed([], 1);
    } else {
      var next := Advance(st, dt);
      assert Resume([st], dt) == Resumed([next], 0);
      StepLands(next, dt, n - 1);
      forall j | 1 <= j <= m
        ensures Resumes([st], dt, j) == Resumes([next], dt, j - 1)
      {
      }
    }
  }

  /**
   A launched quick-step, resumed every dt, finishes and hands over the
   cooldown within QuickStepDuration / dt + 1 frames of its launch.
   */
  lemma LaunchLands(side: Side, dt: real, n: nat)
    requires dt > 0.0 && n as real * dt > QuickStepDuration
    ensures var m := Lifetime(Launch(side, dt), dt, n);
      && m as real * dt <= QuickStepDuration
      && m < n
      && Resume(Resumes([Launch(side, dt)], dt, m), dt) == Resumed([], 1)
  {
    var st := Launch(side, dt);
    var m := Lifetime(st, dt, n);
    StepFinishes(st, dt, n);
    StepLands(st, dt, n);
  }
}

=== FILE: runs.dfy ===
/** Properties of the controller over a sequence of frames. */
module Runs {

  import opened Settings
  import Speed
  import QuickStep
  import PathFollow
  import opened Controller
  import ControllerFacts

  /** One frame's input snapshot and engine answers. */
  datatype Frame = Frame(input: Input, oracles: Oracles)

  /** The state after ticking through the frames in order. */
  function Run(c: Config, s: State, frames: seq<Frame>): State
    decreases |frames|
  {
    if |frames| == 0 then s
    else Run(c, Tick(c, s, frames[0].input, frames[0].oracles).state, frames[1..])
  }

  /** The homing launch fires in this frame. */
  predicate Launches(s: State, f: Frame)
  {
    Free(s) && HomingGuard(s, f.input, f.oracles.grounded)
  }

  /** How many frames of the run fire a homing launch. */
  function LaunchCount(c: Config, s: State, frames: seq<Frame>): nat
    decreases |frames|
  {
    if |frames| == 0 then 0
    else
      (if Launches(s, frames[0]) then 1 else 0)
      + LaunchCount(c, Tick(c, s, frames[0].input, frames[0].oracles).state, frames[1..])
  }

  /** No frame of the run touches the ground. */
  predicate Airborne(frames: seq<Frame>)
  {
    forall k :: 0 <= k < |frames| ==> !frames[k].oracles.grounded
  }

  /** In the air the homing latch, once set, stays set. */
  lemma LatchHoldsInAir(c: Config, s: State, f: Frame)
    requires !f.oracles.grounded
    ensures var r := Tick(c, s, f.input, f.oracles).state;
      && (s.homingUsed ==> r.homingUsed)
      && (Launches(s, f) ==> r.homingUsed)
  {
    if s.homingUsed && !Tick(c, s, f.input, f.oracles).state.homingUsed {
      ControllerFacts.HomingUsedClearedOnlyByGroundedJump(c, s, f.input, f.oracles);
    }
    if Launches(s, f) {
      ControllerFacts.HomingLaunch(c, s, f.input, f.oracles);
    }
  }

  /** Between two ground contacts at most one homing attack fires, and none once the latch is already set. */
  lemma {:induction false} AtMostOneHomingPerFlight(c: Config, s: State, frames: seq<Frame>)
    requires Airborne(frames)
    ensures LaunchCount(c, s, frames) <= 1
    ensures s.homingUsed ==> LaunchCount(c, s, frames) == 0
    decreases |frames|
  {
    if |frames| > 0 {
      var f := frames[0];
      var r := Tick(c, s, f.input, f.oracles).state;
      assert Airborne(frames[1..]) by {
        forall k | 0 <= k < |frames[1..]|
          ensures !frames[1..][k].oracles.grounded
        {
          assert frames[1..][k] == frames[k + 1];
        }
      }
      LatchHoldsInAir(c, s, f);
      AtMostOneHomingPerFlight(c, r, frames[1..]);
    }
  }

  /** Once control is taken away it is never given back. */
  lemma {:induction false} ControlLostForever(c: Config, s: State, frames: seq<Frame>)
    requires !s.canControl
    ensures !Run(c, s, frames).canControl
    decreases |frames|
  {
    if |frames| > 0 {
      ControlLostForever(c, Tick(c, s, frames[0].input, frames[0].oracles).state, frames[1..]);
    }
  }

  /** Every frame has no input direction, the same boost hold and the same duration. */
  predicate Coasting(frames: seq<Frame>, held: bool, dt: real)
  {
    forall k :: 0 <= k < |frames| ==>
      !frames[k].input.hasIntent && frames[k].input.boost == held && frames[k].oracles.dt == dt
  }

  lemma CoastingTail(frames: seq<Frame>, held: bool, dt: real)
    requires |frames| > 0 && Coasting(frames, held, dt)
    ensures Coasting(frames[1..], held, dt)
    ensures !frames[0].input.hasIntent && frames[0].input.boost == held && frames[0].oracles.dt == dt
  {
    forall k | 0 <= k < |frames[1..]|
      ensures !frames[1..][k].input.hasIntent && frames[1..][k].input.boost == held
        && frames[1..][k].oracles.dt == dt
    {
      assert frames[1..][k] == frames[k + 1];
    }
  }

  /**
   Off the paths and without an input direction the speed follows the
   fixed-step decay, one MoveTowards step toward 0 per frame; with
   DecayReachesZero it reaches exactly zero and never goes below.
   */
  lemma {:induction false} CoastDecays(c: Config, s: State, frames: seq<Frame>, held: bool, dt: real)
    requires Free(s) && Coasting(frames, held, dt)
    ensures Free(Run(c, s, frames))
    ensures Run(c, s, frames).currentSpeed == Speed.Decay(s.currentSpeed, Speed.Budget(c, held, dt), |frames|)
    decreases |frames|
  {
    if |frames| > 0 {
      var f := frames[0];
      var r := Tick(c, s, f.input, f.oracles).state;
      CoastingTail(frames, held, dt);
      ControllerFacts.CoastTick(c, s, f.input, f.oracles);
      CoastDecays(c, r, frames[1..], held, dt);
    }
  }

  /** Every frame has a non-negative duration. */
  predicate Timed(frames: seq<Frame>)
  {
    forall k :: 0 <= k < |frames| ==> frames[k].oracles.dt >= 0.0
  }

  /** The invariant holds along every run. */
  lemma {:induction false} RunKeepsValid(c: Config, s: State, frames: seq<Frame>)
    requires Valid(s) && Timed(frames)
    ensures Valid(Run(c, s, frames))
    ensures Sane(c) && SpeedInRange(c, s) ==> SpeedInRange(c, Run(c, s, frames))
    decreases |frames|
  {
    if |frames| > 0 {
      ControllerFacts.TickKeepsValid(c, s, frames[0].input, frames[0].oracles);
      if Sane(c) && SpeedInRange(c, s) {
        ControllerFacts.TickKeepsSpeedInRange(c, s, frames[0].input, frames[0].oracles);
      }
      assert Timed(frames[1..]) by {
        forall k | 0 <= k < |frames[1..]|
          ensures frames[1..][k].oracles.dt >= 0.0
        {
          assert frames[1..][k] == frames[k + 1];
        }
      }
      RunKeepsValid(c, Tick(c, s, frames[0].input, frames[0].oracles).state, frames[1..]);
    }
  }

  /** The proximity answers of the frames, in order. */
  function Withins(frames: seq<Frame>): (w: seq<bool>)
    ensures |w| == |frames|
    decreases |frames|
  {
    if |frames| == 0 then [] else [frames[0].oracles.withinThreshold] + Withins(frames[1..])
  }

  /**
   While on a rail the controller steps exactly the rail follower, one leg per
   frame, so a ride is the follower's walk over the frames' proximity answers.
   */
  lemma {:induction false} RideIsWalk(c: Config, s: State, frames: seq<Frame>)
    requires s.rail.active
    ensures Run(c, s, frames).rail == PathFollow.Walk(s.rail, Withins(frames))
    decreases |frames|
  {
    if |frames| > 0 {
      var r := Tick(c, s, frames[0].input, frames[0].oracles).state;
      ControllerFacts.RideTick(c, s, frames[0].input, frames[0].oracles);
      assert Withins(frames)[1..] == Withins(frames[1..]);
      if r.rail.active {
        RideIsWalk(c, r, frames[1..]);
      } else {
        RailStaysOff(c, r, frames[1..]);
      }
    }
  }

  /** Once off, a rail stays off and untouched: only StartRail turns it on. */
  lemma {:induction false} RailStaysOff(c: Config, s: State, frames: seq<Frame>)
    requires !s.rail.active
    ensures Run(c, s, frames).rail == s.rail
    decreases |frames|
  {
    if |frames| > 0 {
      var r := Tick(c, s, frames[0].input, frames[0].oracles).state;
      if Free(s) {
        assert r.rail == s.rail;
      } else {
        ControllerFacts.RideTick(c, s, frames[0].input, frames[0].oracles);
      }
      RailStaysOff(c, r, frames[1..]);
    }
  }

  /** A rail started on an empty path is never left: every frame is a ride that does nothing. */
  lemma {:induction false} EmptyRailNeverEnds(c: Config, s: State, frames: seq<Frame>)
    requires s.rail.active && |s.rail.path| == 0
    ensures Run(c, s, frames).rail == s.rail
    decreases |frames|
  {
    if |frames| > 0 {
      var r := Tick(c, s, frames[0].input, frames[0].oracles).state;
      ControllerFacts.RideTick(c, s, frames[0].input, frames[0].oracles);
      EmptyRailNeverEnds(c, r, frames[1..]);
    }
  }

  /** Once both followers are off they stay off and untouched. */
  lemma {:induction false} AutoStaysOff(c: Config, s: State, frames: seq<Frame>)
    requires Free(s)
    ensures Run(c, s, frames).auto == s.auto && Run(c, s, frames).rail == s.rail
    decreases |frames|
  {
    if |frames| > 0 {
      var r := Tick(c, s, frames[0].input, frames[0].oracles).state;
      assert r.rail == s.rail && r.auto == s.auto;
      AutoStaysOff(c, r, frames[1..]);
    }
  }

  /** With the rail off, an auto-move is the follower's walk over the frames' proximity answers. */
  lemma {:induction false} AutoIsWalk(c: Config, s: State, frames: seq<Frame>)
    requires !s.rail.active && s.auto.active
    ensures Run(c, s, frames).auto == PathFollow.Walk(s.auto, Withins(frames))
    decreases |frames|
  {
    if |frames| > 0 {
      var r := Tick(c, s, frames[0].input, frames[0].oracles).state;
      ControllerFacts.RideTick(c, s, frames[0].input, frames[0].oracles);
      assert Withins(frames)[1..] == Withins(frames[1..]);
      if r.auto.active {
        AutoIsWalk(c, r, frames[1..]);
      } else {
        AutoStaysOff(c, r, frames[1..]);
      }
    }
  }

  /** Every frame lasts dt and presses neither quick-step button. */
  predicate Unstepped(frames: seq<Frame>, dt: real)
  {
    forall k :: 0 <= k < |frames| ==>
      !frames[k].input.quickLeft && !frames[k].input.quickRight && frames[k].oracles.dt == dt
  }

  lemma UnsteppedTail(frames: seq<Frame>, dt: real)
    requires |frames| > 0 && Unstepped(frames, dt)
    ensures Unstepped(frames[1..], dt)
    ensures !frames[0].input.quickLeft && !frames[0].input.quickRight && frames[0].oracles.dt == dt
  {
    forall k | 0 <= k < |frames[1..]|
      ensures !frames[1..][k].input.quickLeft && !frames[1..][k].input.quickRight && frames[1..][k].oracles.dt == dt
    {
      assert frames[1..][k] == frames[k + 1];
    }
  }

  /**
   A quick-step alone in flight lands within its Lifetime plus one frames of
   free play: the coroutine is gone and the cooldown is set. For a step just
   launched, QuickStep.LaunchLands bounds that Lifetime by 0.1 / dt.
   */
  lemma {:induction false} QuickStepLands(c: Config, s: State, frames: seq<Frame>, dt: real)
    requires Free(s) && |s.quickSteps| == 1 && Unstepped(frames, dt)
    requires QuickStep.Lifetime(s.quickSteps[0], dt, |frames|) < |frames|
    ensures var m := QuickStep.Lifetime(s.quickSteps[0], dt, |frames|);
      var r := Run(c, s, frames[..m + 1]);
      r.quickSteps == [] && r.quickStepTimer == c.quickStepCooldown
    decreases |frames|
  {
    var st := s.quickSteps[0];
    var m := QuickStep.Lifetime(st, dt, |frames|);
    var f := frames[0];
    UnsteppedTail(frames, dt);
    ControllerFacts.QuickStepsResumed(c, s, f.input, f.oracles);
    var r := Tick(c, s, f.input, f.oracles).state;
    assert s.quickSteps == [st];
    assert frames[..m + 1][0] == f;
    assert Run(c, s, frames[..m + 1]) == Run(c, r, frames[..m + 1][1..]);
    if !QuickStep.Running(st) {
      assert QuickStep.Resume([st], dt) == QuickStep.Resumed([], 1);
      assert frames[..m + 1][1..] == [];
    } else {
      var next := QuickStep.Advance(st, dt);
      assert QuickStep.Resume([st], dt) == QuickStep.Resumed([next], 0);
      assert frames[..m + 1][1..] == frames[1..][..m];
      QuickStepLands(c, r, frames[1..], dt);
    }
  }
}

=== FILE: settings.dfy ===
/**
 The tuning of the character controller. The public float fields are set in
 the Unity inspector, so the model takes them as a configuration value; the
 private gauge constants and the literals written inside the methods are
 fixed and appear here as constants.
 */
module Settings {

  /** The inspector fields that the locomotion logic reads. */
  datatype Config = Config(
    runSpeedMax: real,
    boostSpeed: real,
    acceleration: real,
    boostAcceleration: real,
    gravity: real,
    jumpPower: real,
    airControl: real,
    homingSpeed: real,
    homingCooldown: real,
    quickStepCooldown: real,
    slideSpeed: real,
    slideDuration: real,
    stompSpeed: real,
    railSpeed: real,
    autoMoveSpeed: real)

  /** The values the fields are declared with. */
  const Default: Config := Config(
    runSpeedMax := 15.0,
    boostSpeed := 25.0,
    acceleration := 6.0,
    boostAcceleration := 10.0,
    gravity := 25.0,
    jumpPower := 9.0,
    airControl := 0.5,
    homingSpeed := 25.0,
    homingCooldown := 0.5,
    quickStepCooldown := 0.25,
    slideSpeed := 12.0,
    slideDuration := 0.6,
    stompSpeed := -30.0,
    railSpeed := 20.0,
    autoMoveSpeed := 15.0)

  // The boost gauge (private fields).
  const BoostMax: real := 100.0
  const InitialBoost: real := 100.0
  const BoostDrainRate: real := 30.0
  const BoostRegenRate: real := 10.0
  /** Gauge gained per ring added through AddRings. */
  const RingBoost: real := 2.0

  /** Half-angle, in degrees, of the homing-attack cone. */
  const HomingCone: real := 60.0
  /** Vertical velocity that keeps a grounded character pressed to the floor. */
  const GroundBias: real := -1.0
  /** Length of one quick-step, in seconds. */
  const QuickStepDuration: real := 0.1
  /** Fraction of runSpeedMax the speed must exceed before a quick-step may start. */
  const QuickStepGate: real := 0.6

  /** Speed tiers and acceleration rates are not negative: the only assumption the speed proofs make about tuning. */
  predicate Sane(c: Config)
  {
    && c.runSpeedMax >= 0.0 && c.boostSpeed >= 0.0
    && c.acceleration >= 0.0 && c.boostAcceleration >= 0.0
  }

  lemma DefaultIsSane()
    ensures Sane(Default)
  {
  }
}

=== FILE: speed.dfy ===
/** Speed tiers and integration of the scalar run speed. */
module Speed {

  import opened Settings

  function Abs(x: real): real
  {
    if x >= 0.0 then x else -x
  }

  /** Unity's Mathf.Sign, which answers 1 for zero. */
  function Sign(x: real): real
  {
    if x >= 0.0 then 1.0 else -1.0
  }

  /**
   Unity's Mathf.MoveTowards: a step of maxDelta from current toward target,
   landing on target when it is within reach.
   */
  function MoveTowards(current: real, target: real, maxDelta: real): (r: real)
    ensures Abs(target - current) <= maxDelta ==> r == target
    ensures Abs(target - current) > maxDelta ==> Abs(r - current) == Abs(maxDelta)
    ensures maxDelta >= 0.0 ==> Abs(r - current) <= maxDelta
    ensures maxDelta >= 0.0 && current <= target ==> current <= r <= target
    ensures maxDelta >= 0.0 && target <= current ==> target <= r <= current
  {
    if Abs(target - current) <= maxDelta then target
    else current + Sign(target - current) * maxDelta
  }

  /** The boosted tier is chosen only while boost is held and the gauge still holds fuel. */
  function Tier(c: Config, held: bool, energy: real): real
  {
    if held && energy > 0.0 then c.boostSpeed else c.runSpeedMax
  }

  /** Holding boost switches the acceleration constant, whatever the gauge holds. */
  function Accel(c: Config, held: bool): real
  {
    if held then c.boostAcceleration else c.acceleration
  }

  /** The largest change of speed allowed in one tick. */
  function Budget(c: Config, held: bool, dt: real): real
  {
    Accel(c, held) * dt
  }

  lemma BudgetSign(c: Config, held: bool, dt: real)
    requires Sane(c) && dt >= 0.0
    ensures Budget(c, held, dt) >= 0.0
    ensures dt > 0.0 && Accel(c, held) > 0.0 ==> Budget(c, held, dt) > 0.0
  {
  }

  /** The speed target of one tick: the tier with intent, zero without. */
  function Target(c: Config, held: bool, energy: real, intent: bool): real
  {
    if intent then Tier(c, held, energy) else 0.0
  }

  /**
   One speed update moves by at most the acceleration times dt, and only the
   boosted tier (boost held, fuel left, intent present) can lift the speed
   past both its old value and runSpeedMax.
   */
  lemma TierStep(c: Config, held: bool, energy: real, intent: bool, current: real, dt: real)
    requires Sane(c) && dt >= 0.0
    ensures var r := MoveTowards(current, Target(c, held, energy, intent), Budget(c, held, dt));
      && Abs(r - current) <= Budget(c, held, dt)
      && (r > current && r > c.runSpeedMax ==> held && energy > 0.0 && intent)
  {
    var a := Accel(c, held);
    assert a * dt >= 0.0 by {
      assert a >= 0.0;
    }
  }

  /** The speed after n ticks without intent, each allowed a change of step. */
  function Decay(v: real, step: real, n: nat): real
    decreases n
  {
    if n == 0 then v else Decay(MoveTowards(v, 0.0, step), step, n - 1)
  }

  /** Without intent the speed falls monotonically to exactly zero, never below. */
  lemma {:induction false} DecayReachesZero(v: real, step: real, n: nat)
    requires v >= 0.0 && step > 0.0
    ensures 0.0 <= Decay(v, step, n) <= v
    ensures n as real * step >= v ==> Decay(v, step, n) == 0.0
    decreases n
  {
    if n > 0 {
      var w := MoveTowards(v, 0.0, step);
      assert w == (if v <= step then 0.0 else v - step);
      assert (n - 1) as real * step == n as real * step - step;
      DecayReachesZero(w, step, n - 1);
    }
  }
}
